=== FILE: README.md ===
# Arduino IDE debugger and serial monitor core, in Dafny

This project models two small pieces of logic from the Arduino IDE (a Brackets-based editor).
It proves properties about them.

- **The debugger bridge** (`node/debugger.js`). Each debug action writes one command line to
  the GDB process's standard input and usually announces a text as a `debug_data` event.
  - `debug_commands.dfy` gives the exact written and announced texts of every action.
  - `debug_session.dfy` keeps the trace of writes and events. It also relays the process's
    stdout chunks as `debug_data` events and its stderr chunks as `debug_err` events.
  - `startup.dfy` models the `launchGdb` timer sequence over discrete one-millisecond ticks.
    With a process id, the ELF file is loaded after one interval. That timer then arms a
    second one, which connects to the target one interval later.
  - `tool_paths.dfy` models the root directory string and the four tool path strings.
- **The serial monitor** (`modules/SerialMonitor/main.js`).
  - `serial_framing.dfy` models how the send button frames a message: every CR and LF is
    removed, then the terminator chosen by the end-of-line setting is appended.
  - `serial_panel.dfy` models the panel state: whether it is visible, the selected port,
    the stored baud rate and the end-of-line setting.
    - Every operation appends the `open`, `close` and `send` requests it puts to the serial
      domain, and the console notices its callbacks produce.
    - The outcome of each request is an input.
- `js_text.dfy` holds the JavaScript conversions the code relies on: `String(n)` for an
  integer, and decimal `parseInt`.
- `optional.dfy` holds an `Option` type.

Two behaviours of the source are modelled exactly as written. They are proved, not corrected:

- The restart command writes `monitor reset run` but announces `monitor reset resume`.
- Listing breakpoints writes two spaces before the line end but announces one.

Other details modelled as written:

- `closeSerialPort` checks the stored baud rate as well as the port. It reports
  "Serial port not specified" when only the rate is missing.
- When closing failed, `changeParameter` still opens the port. If that open also fails, the
  error is reported with the words "Error in serial port closing".
- A port change selects the new port before re-applying the parameters, so the old port is
  never closed. Both this behaviour and a corrected version are modelled (see Findings).

## Model

| member | source | states |
|---|---|---|
| JsText.DecimalString | node/debugger.js:157-159 | the decimal text of an integer line number: it ends in a digit, and it starts with `-` exactly when the number is negative |
| JsText.ReadMagnitude | modules/SerialMonitor/main.js:250 | a number is read exactly when the text starts with a digit, and it is never negative |
| JsText.ParseInt | modules/SerialMonitor/main.js:250 | `parseInt` gives a number only when the text has a digit; text that starts with a digit gives a non-negative number |
| JsText.NoDigitNoNumber | modules/SerialMonitor/main.js:250 | text without a digit, such as `"undefined"` or `"NaN"`, is NaN to `parseInt` |
| JsText.ParseDecimalString | modules/SerialMonitor/main.js:331-332 | `parseInt(String(n)) == n`, the round trip a rate chosen in the baud selector goes through |
| JsText.ParseDecimalPrefix | modules/SerialMonitor/main.js:250 | `parseInt` reads back the decimal text of `n` whatever non-digit text follows it |
| JsText.LeadingSpaceSkipped | modules/SerialMonitor/main.js:250 | any ECMAScript white-space character in front of a number is skipped |
| JsText.NoBreakSpaceSkipped | modules/SerialMonitor/main.js:250 | a no-break space (U+00A0) in front of a number is skipped |
| DebugCommands.Render | node/debugger.js:102-171 | every written line and every announced text ends with `" \n"`; only the ELF load announces nothing; halt, continue and next write the announced text behind one space; breakpoint, print and connect write exactly what they announce |
| DebugCommands.RestartAnnouncesResume | node/debugger.js:127-132 | restart writes `" monitor reset run \n"`, announces `"monitor reset resume \n"`, and the two differ in more than the leading space |
| DebugCommands.ListBreakpointsWritesExtraSpace | node/debugger.js:148-153 | listing breakpoints writes `"info breakpoints  \n"` and announces `"info breakpoints \n"`: one extra space before the line end |
| DebugCommands.WrittenCarriesIntent | node/debugger.js:120-171 | once the padding is trimmed, every written line is exactly the GDB command of its action, provided the variable or ELF path it carries is non-empty and does not end in white space |
| DebugCommands.EchoCarriesIntentUnlessRestart | node/debugger.js:120-171 | for an action other than the ELF load whose variable, if any, is non-empty and does not end in white space, the trimmed announced text equals the action's command if and only if the action is not restart |
| DebugSession.Announcements | node/debugger.js:105-114 | an action produces at most one event, none exactly when it has no announced text, and that event is a `debug_data` carrying the text |
| DebugSession.Perform | node/debugger.js:102-171 | one action appends exactly its written line to the writes and its announcement to the events |
| DebugSession.SymbolLoadIsSilent | node/debugger.js:102-115 | the ELF load leaves the events unchanged; the connect step announces exactly the line it wrote |
| DebugSession.PerformAllWritesInOrder | node/debugger.js:120-171 | a sequence of actions writes its lines in the order of the actions, after what was already written |
| DebugSession.RelayChunk | node/debugger.js:85-91 | a chunk becomes a `debug_data` event exactly when it came from stdout, and its text is unchanged |
| DebugSession.RelayEvents | node/debugger.js:85-91 | one event per chunk, in order |
| DebugSession.Relay | node/debugger.js:85-91 | relaying writes nothing to the process and appends exactly one relayed event per chunk, in order, after the events already published |
| DebugSession.RelayKeepsChannelsApart | node/debugger.js:85-91 | the `debug_data` texts are exactly the stdout texts and the `debug_err` texts exactly the stderr texts, in order |
| Startup.LaunchGdb | node/debugger.js:93-99 | with a truthy pid, exactly one timer is armed, one interval ahead, for the ELF load; without one, nothing is armed |
| Startup.FireDue | node/debugger.js:94-98 | after firing, the timers kept are exactly those not yet due, in their arming order; the newly armed timers are one connect step one interval ahead per symbol load that fired |
| Startup.FireDueKeepsPending | node/debugger.js:94-98 | every timer not yet due is still pending after firing, and every timer still pending was armed before and is not yet due |
| Startup.FireDueRunsDueJobs | node/debugger.js:94-115 | firing writes and announces exactly what the jobs of the due timers do, in arming order, and nothing else |
| Startup.Tick | node/debugger.js:94-98 | a tick advances time by one, leaves only timers due in the future, keeps every timer not yet due at the head of the pending list in its order, and changes nothing else when no timer is pending |
| Startup.TickKeepsPending | node/debugger.js:94-98 | a timer due after the next millisecond is never dropped by a tick |
| Startup.TickRunsDueJobs | node/debugger.js:94-115 | the session after a tick is the session before it with the jobs of every timer due by then performed, in arming order |
| Startup.Run | node/debugger.js:93-99 | running for n ticks advances time by n |
| Startup.FireOne | node/debugger.js:94-98 | a due load timer writes the load line and arms the connect timer; a due connect timer writes the connect line; a timer not yet due stays pending |
| Startup.LaunchFollowsSchedule | node/debugger.js:93-99 | with a pid, the launch followed by any number of ticks equals the reference two-phase schedule |
| Startup.LaunchWritesTwoLines | node/debugger.js:93-115 | with a pid: nothing before one interval; then the `file` line; from two intervals on, also the `target remote localhost:3333` line, and only that one is announced |
| Startup.IdleStaysQuiet | node/debugger.js:93-99 | with no timer pending, ticking changes nothing but the clock |
| Startup.NoPidNoStartup | node/debugger.js:93 | without a pid nothing is ever written or announced |
| ToolPaths.LastIndexOf | node/debugger.js:42 | the index of the last occurrence of the character, and -1 exactly when it does not occur |
| ToolPaths.RootDir | node/debugger.js:42 | the root directory is the directory cut just before its last separator, and empty when there is no separator |
| ToolPaths.Components | node/debugger.js:50-68 | every tool path lies below `hardware` |
| ToolPaths.RelativePath | node/debugger.js:50-68 | every relative tool path starts with `hardware` followed by the platform separator |
| ToolPaths.SuffixAsWritten | node/debugger.js:50-68 | the win32 suffix is a backslash followed by the relative path; the other suffix is the bare relative path, with no separator in front |
| ToolPaths.ToolPathAsWritten | node/debugger.js:50-68 | a tool path is the root directory followed by the platform suffix |
| ToolPaths.ToolPath | node/debugger.js:50-68 | corrected tool path: the directory up to and including its last separator, then the relative path |
| ToolPaths.WindowsPathsAsIntended | node/debugger.js:50-68 | on win32 the written paths are the corrected ones |
| ToolPaths.OtherPathsMissSeparator | node/debugger.js:50-68 | on other platforms every written path is one character short of the corrected one and differs from it |
| ToolPaths.OtherPathExample | node/debugger.js:42-53 | for the directory `/a/node`, the written path starts `/ahardware/` where `/a/hardware/` is meant |
| SerialFraming.StripLineBreaks | modules/SerialMonitor/main.js:301 | the replaced text has no CR or LF, is no longer than the input, and equals it when it had none |
| SerialFraming.StripIsFilter | modules/SerialMonitor/main.js:301 | the regular-expression replacement removes exactly the CR and LF characters and keeps all others in order |
| SerialFraming.Terminator | modules/SerialMonitor/main.js:302-307 | NL adds `"\n"`, CR adds `"\r"`, NLCR adds `"\r\n"`, and any other setting adds nothing |
| SerialFraming.Frame | modules/SerialMonitor/main.js:299-307 | nothing is sent exactly when the message is empty; otherwise the text ends with the terminator and has no line break before it |
| SerialFraming.FrameContent | modules/SerialMonitor/main.js:299-307 | the sent text is the message's non-break characters followed by the terminator |
| SerialFraming.LineBreaksOnlySendTerminator | modules/SerialMonitor/main.js:299-308 | a non-empty message made only of line breaks is sent as the bare terminator |
| SerialFraming.FramedLineReadsBack | modules/SerialMonitor/main.js:299-307 | with NL, CR or NLCR, reading the sent text up to its first line break gives back a message that had no line breaks |
| SerialPanel.Init | modules/SerialMonitor/main.js:78-86 | the monitor starts hidden, with the port from the board options and the rate and end-of-line setting from the preferences, and nothing requested or reported |
| SerialPanel.BaudArgument | modules/SerialMonitor/main.js:250 | the baud of an open request: a numeric rate is sent as that number, preference text as `parseInt` reads it, an unset or NaN rate as NaN |
| SerialPanel.OpenPort | modules/SerialMonitor/main.js:246-260 | `open` is requested exactly when the port and the stored rate are both set, with the port's address and `parseInt` of the stored rate; otherwise the callback gets "Serial port or baud rate not specified" |
| SerialPanel.ClosePort | modules/SerialMonitor/main.js:262-277 | `close` is requested exactly when the port and the stored rate are both set; otherwise the callback gets "Serial port not specified" |
| SerialPanel.OpenIgnoresRateArgument | modules/SerialMonitor/main.js:246-250 | the `rate` argument of `openSerialPort` has no effect |
| SerialPanel.CloseNeedsRate | modules/SerialMonitor/main.js:262-275 | with a port but no stored rate, closing requests nothing and reports the port as missing |
| SerialPanel.ChangeParameter | modules/SerialMonitor/main.js:214-244 | hidden: nothing changes. Visible and ready: `close` then `open` of the same port. Then, by the open reply: a clear and "connected to" the address; "Error in serial port opening" after a good close; "closing" after a failed one. Not ready: one closing error carrying the open guard's text |
| SerialPanel.Reconnect | modules/SerialMonitor/main.js:217-241 | requests what closing the given port and then opening the selected one request, and keeps the settings. The notice depends on the open and then the close. A successful open clears and logs "connected to" the selected port. A failed open after a successful close reports an opening error. A failed open after a failed close reports the open's error as a closing error. With no port or rate, the error reported is the open guard's text |
| SerialPanel.ReopenDespiteCloseFailure | modules/SerialMonitor/main.js:217-241 | the outcome of `close` never changes which requests are issued: the port is reopened either way |
| SerialPanel.FailedReopenAfterFailedCloseReadsAsClosing | modules/SerialMonitor/main.js:217-240 | a failed reopen reads as "Error in serial port closing" after a failed close and as "Error in serial port opening" after a good one |
| SerialPanel.PortChange | modules/SerialMonitor/main.js:114-119 | a missing port or the current one changes nothing. Any other port becomes the selected one. On a hidden panel that is all. On a visible panel with a rate, `close` and then `open` are requested, both of the NEW port, and the notice follows the two replies as in `changeParameter` (connected to the new port, or an opening or closing error). On a visible panel without a rate, nothing is requested and the open guard's text is reported as a closing error |
| SerialPanel.PortSwitch | modules/SerialMonitor/main.js:114-119 | corrected port change: on a visible panel with a rate, the port that was selected is closed and then the new one is opened, with the connected, opening-error or closing-error notice of `changeParameter` |
| SerialPanel.PortChangeLeavesOldPortOpen | modules/SerialMonitor/main.js:114-119 | moving a visible panel to another port never closes the old port as written, and does close it in the corrected version |
| SerialPanel.PortChangeIdempotent | modules/SerialMonitor/main.js:114-119 | a second port-change event for the same port is ignored |
| SerialPanel.BaudChange | modules/SerialMonitor/main.js:329-334 | the stored rate becomes `parseInt` of the selected value and the other settings are kept; a hidden panel changes nothing else; a visible ready panel requests a close and then an open of its port at the new rate, with the connected, opening-error or closing-error notice of `changeParameter`; a visible panel without port or rate requests nothing and reports the guard's closing error |
| SerialPanel.BaudChangeReopensAtChosenRate | modules/SerialMonitor/main.js:329-334 | on a visible panel with a port, choosing a non-zero rate closes the port and reopens it at exactly that rate |
| SerialPanel.EolChange | modules/SerialMonitor/main.js:323-327 | the end-of-line selector stores the new setting and changes nothing else |
| SerialPanel.HidePanel | modules/SerialMonitor/main.js:318-321 | the close button hides the panel and changes nothing else: no request, no notice, same port, rate and end-of-line setting |
| SerialPanel.HiddenPanelIssuesNothing | modules/SerialMonitor/main.js:214-216 | while hidden, port and rate changes request nothing |
| SerialPanel.TogglePanel | modules/SerialMonitor/main.js:135-168 | toggling flips visibility and re-reads the rate and end-of-line preferences. Hiding requests what `closeSerialPort` requests and reports "disconnected from" the address or the closing error. Showing requests what `openSerialPort` requests and reports "connected to" or the opening error. A guard failure reports the guard's text |
| SerialPanel.ToggleTwice | modules/SerialMonitor/main.js:135-168 | toggling twice restores visibility; from hidden, with a port and a rate, it opens and then closes that port |
| SerialPanel.SendMessage | modules/SerialMonitor/main.js:298-308 | an empty message sends nothing; otherwise one `send` of the framed message under the current end-of-line setting is requested; visibility, port, rate, end-of-line setting and notices are unchanged |

## Left out

- Process spawning is not modelled: `child_process.spawn` and `exec`, `launchOpenOcd` and its argument list (node/debugger.js:72-78), and the `exec(cmd, args)` call at node/debugger.js:83. The pid is an optional input.
- Real timers are not modelled. `setTimeout` becomes timers due after a number of one-millisecond ticks.
- `getTmpFolder`/`os.tmpdir`, the debugger's `console.log` tracing and the serial monitor's `console.error` diagnostics in its callbacks (modules/SerialMonitor/main.js:147, 160, 225, 237) are not modelled: they only write to the developer console. The domain manager registration (node/debugger.js:174-316) is not part of this model.
- Writes to an absent or exited debugger process are not modelled. Before any launch the debugger process is undefined (node/debugger.js:39-40, 83), so halt, restart, next, continue, show_breakpoints, set_breakpoint and show_value throw a TypeError and emit nothing; `DebugSession.Perform` appends the write and the event regardless. After the process has exited, the source does not guard the write either, so the model adds no error kinds for it.
- DebugCommands.Render: the breakpoint line is an integer. The source accepts any value and concatenates its string form.
- The serial monitor's DOM and jQuery wiring are not modelled: toolbar icon, menus, stylesheet and panel loading, and auto-scroll.
- The HTML rendering of `serialDataHandler` and `serialErrorHandler` is not modelled (modules/SerialMonitor/main.js:176-203). Neither is clearing the input box after a successful send.
- The preferences store is not modelled. Values are read as inputs on a toggle. Writing the end-of-line and baud choices back to it is left out.
- The replies of `serialDomain.exec` are inputs, and their asynchronous interleavings are not modelled. Each operation finishes with its callbacks before the next begins.
- SerialPanel.PortChange: ports are compared by value. JavaScript compares the port objects by identity.
- JsText.ParseInt: models decimal text only. The `0x` prefix and the reading of very large numbers as doubles are left out.
- JsText.DecimalString: does not model the exponent form `String` uses for integers of 21 digits or more.
- Startup.LaunchGdb: relaunching while earlier timers are pending can be represented, but no property is proved about overlapping launches.

## Findings

| source | as written | input that shows it | evidently intended | confidence | as-written member | corrected member |
|---|---|---|---|---|---|---|
| node/debugger.js:42-68 | on platforms other than win32 the suffix `hardware/...` is appended straight to `rootDir`, which has lost its trailing separator | `__dirname` = `/a/node` gives `/ahardware/tools/...` | `/a/hardware/tools/...`, with a separator between the root directory and `hardware`, as on win32 | likely; not executed | ToolPaths.ToolPathAsWritten (shown by ToolPaths.OtherPathsMissSeparator and ToolPaths.OtherPathExample) | ToolPaths.ToolPath |
| modules/SerialMonitor/main.js:114-119 | `serialPort` is replaced before `changeParameter` runs, so its `close` names the new port and the port that was open is never closed | visible panel connected to port A at 9600 baud, port-change event to port B: requests are `close(B)`, `open(B)`; A stays open | close A, then open B | possible, it depends on how the serial domain treats a second open port; not executed | SerialPanel.PortChange (shown by SerialPanel.PortChangeLeavesOldPortOpen) | SerialPanel.PortSwitch |

=== FILE: debug_commands.dfy ===
/**
 The debug actions of the bridge and the text each one puts on the wire. Every action writes
 one line to the debugger's standard input and, except for loading the symbol file, announces
 a text as a `debug_data` event. The written line and the announced text differ in small ways
 that this module keeps exactly: a leading space on halt, restart, continue and next, a doubled
 space in `info breakpoints`, and the verb `run` written but `resume` announced on restart.
 */
module DebugCommands {
  import opened Optional
  import JsText

  datatype Action =
    | Halt                        // stopExecution
    | Restart                     // restartExecution
    | ContinueToBreakpoint        // stepNextBp
    | StepLine                    // stepNextLine
    | ListBreakpoints             // showBreakpoints
    | SetBreakpoint(line: int)    // setBreakpoint
    | ShowValue(variable: string) // showVariable
    | LoadSymbols(elfPath: string) // locateElfFile
    | ConnectTarget               // locateLiveProgram

  /** What one action does: the line written to the debugger's stdin, and the text of the
      `debug_data` event it emits, if it emits one. */
  datatype Command = Command(written: string, echoed: Option<string>)

  /** Every written line and every announced text ends with a space and a newline. */
  const LineEnd := " \n"

  const RemoteTarget := "target remote localhost:3333"

  predicate EndsWith(s: string, suffix: string) {
    |suffix| <= |s| && s[|s| - |suffix|..] == suffix
  }

  /** The debugger command an action stands for, without padding: the command the
      debugger acts on once surrounding white space is skipped. */
  function Intent(a: Action): string {
    match a
    case Halt => "monitor reset halt"
    case Restart => "monitor reset run"
    case ContinueToBreakpoint => "continue"
    case StepLine => "next"
    case ListBreakpoints => "info breakpoints"
    case SetBreakpoint(line) => "b " + JsText.DecimalString(line)
    case ShowValue(variable) => "print " + variable
    case LoadSymbols(path) => "file " + path
    case ConnectTarget => RemoteTarget
  }

  /** The texts each action writes and announces, character for character. */
  function Render(a: Action): (c: Command)
    ensures EndsWith(c.written, LineEnd)
    ensures c.echoed.Some? ==> EndsWith(c.echoed.value, LineEnd)
    ensures c.echoed.None? <==> a.LoadSymbols?
    ensures a.Halt? || a.ContinueToBreakpoint? || a.StepLine? ==>
              c.echoed.Some? && c.written == " " + c.echoed.value
    ensures a.SetBreakpoint? || a.ShowValue? || a.ConnectTarget? ==> c.echoed == Some(c.written)
  {
    match a
    case Halt => Command(" " + "monitor reset halt" + LineEnd, Some("monitor reset halt" + LineEnd))
    case Restart => Command(" " + "monitor reset run" + LineEnd, Some("monitor reset resume" + LineEnd))
    case ContinueToBreakpoint => Command(" " + "continue" + LineEnd, Some("continue" + LineEnd))
    case StepLine => Command(" " + "next" + LineEnd, Some("next" + LineEnd))
    case ListBreakpoints => Command("info breakpoints" + " " + LineEnd, Some("info breakpoints" + LineEnd))
    case SetBreakpoint(line) =>
      var text := "b " + JsText.DecimalString(line) + LineEnd;
      Command(text, Some(text))
    case ShowValue(variable) =>
      var text := "print " + variable + LineEnd;
      Command(text, Some(text))
    case LoadSymbols(path) => Command("file " + path + LineEnd, None)
    case ConnectTarget => Command(RemoteTarget + LineEnd, Some(RemoteTarget + LineEnd))
  }

  /** The restart action writes the verb `run` but announces `resume`: the two texts differ
      in more than the leading space. */
  lemma RestartAnnouncesResume()
    ensures Render(Restart).written == " monitor reset run \n"
    ensures Render(Restart).echoed == Some("monitor reset resume \n")
    ensures Render(Restart).written != " " + Render(Restart).echoed.value
  {
    assert "monitor reset resume" + LineEnd == "monitor reset resume \n";
    assert |Render(Restart).written| == 20;
    assert |" " + Render(Restart).echoed.value| == 23;
  }

  /** Listing breakpoints writes one space more than it announces, just before the line end. */
  lemma ListBreakpointsWritesExtraSpace()
    ensures Render(ListBreakpoints).written == "info breakpoints  \n"
    ensures Render(ListBreakpoints).echoed == Some("info breakpoints \n")
    ensures var e := Render(ListBreakpoints).echoed.value;
            Render(ListBreakpoints).written == e[..|e| - 1] + " \n"
  {
    assert "info breakpoints" + LineEnd == "info breakpoints \n";
    assert "info breakpoints " + LineEnd == "info breakpoints  \n";
  }

  /** An argument the debugger reads back unchanged: not empty and not ending in white space. */
  predicate TidyArgument(s: string) {
    s != "" && !JsText.IsSpace(s[|s| - 1])
  }

  predicate TidyArguments(a: Action) {
    match a
    case ShowValue(variable) => TidyArgument(variable)
    case LoadSymbols(path) => TidyArgument(path)
    case _ => true
  }

  /** `s` without trailing white space. */
  function TrimEnd(s: string): (r: string)
    ensures |r| <= |s| && r == s[..|r|]
    ensures r == "" || !JsText.IsSpace(r[|r| - 1])
  {
    if |s| > 0 && JsText.IsSpace(s[|s| - 1]) then TrimEnd(s[..|s| - 1]) else s
  }

  /** A line as the debugger reads it: without surrounding white space. */
  function Trim(s: string): string {
    JsText.TrimStart(TrimEnd(s))
  }

  predicate AllSpace(s: string) {
    forall i :: 0 <= i < |s| ==> JsText.IsSpace(s[i])
  }

  lemma {:induction false} TrimEndDropsSpace(s: string, pad: string)
    requires AllSpace(pad)
    ensures TrimEnd(s + pad) == TrimEnd(s)
    decreases |pad|
  {
    if |pad| > 0 {
      var shorter := pad[..|pad| - 1];
      assert (s + pad)[..|s + pad| - 1] == s + shorter;
      TrimEndDropsSpace(s, shorter);
    } else {
      assert s + pad == s;
    }
  }

  lemma {:induction false} TrimStartDropsSpace(pad: string, s: string)
    requires AllSpace(pad)
    ensures JsText.TrimStart(pad + s) == JsText.TrimStart(s)
    decreases |pad|
  {
    if |pad| > 0 {
      assert (pad + s)[1..] == pad[1..] + s;
      TrimStartDropsSpace(pad[1..], s);
    } else {
      assert pad + s == s;
    }
  }

  /** White space around a word that starts and ends with a non-space is trimmed away exactly. */
  lemma TrimPadded(lead: string, word: string, trail: string)
    requires AllSpace(lead) && AllSpace(trail)
    requires word != "" && !JsText.IsSpace(word[0]) && !JsText.IsSpace(word[|word| - 1])
    ensures Trim(lead + word + trail) == word
  {
    TrimEndDropsSpace(lead + word, trail);
    assert TrimEnd(lead + word) == lead + word;
    TrimStartDropsSpace(lead, word);
  }

  lemma TrimTrailing(word: string, trail: string)
    requires AllSpace(trail)
    requires word != "" && !JsText.IsSpace(word[0]) && !JsText.IsSpace(word[|word| - 1])
    ensures Trim(word + trail) == word
  {
    TrimPadded("", word, trail);
    assert "" + word + trail == word + trail;
  }

  /** Every line written to the debugger carries the action's command: once the padding is
      skipped, the debugger reads exactly `Intent(a)`. */
  lemma WrittenCarriesIntent(a: Action)
    requires TidyArguments(a)
    ensures Trim(Render(a).written) == Intent(a)
  {
    if a.Halt? || a.Restart? {
      WrittenCarriesIntentReset(a);
    } else if a.ContinueToBreakpoint? || a.StepLine? {
      WrittenCarriesIntentStep(a);
    } else if a.ListBreakpoints? || a.ConnectTarget? {
      WrittenCarriesIntentFixed(a);
    } else {
      WrittenCarriesIntentArgument(a);
    }
  }

  lemma WrittenCarriesIntentArgument(a: Action)
    requires a.SetBreakpoint? || a.ShowValue? || a.LoadSymbols?
    requires TidyArguments(a)
    ensures Trim(Render(a).written) == Intent(a)
  {
    TrimTrailing(Intent(a), LineEnd);
  }

  lemma WrittenCarriesIntentReset(a: Action)
    requires a.Halt? || a.Restart?
    ensures Trim(Render(a).written) == Intent(a)
  {
    TrimPadded(" ", Intent(a), LineEnd);
  }

  lemma WrittenCarriesIntentStep(a: Action)
    requires a.ContinueToBreakpoint? || a.StepLine?
    ensures Trim(Render(a).written) == Intent(a)
  {
    TrimPadded(" ", Intent(a), LineEnd);
  }

  lemma WrittenCarriesIntentFixed(a: Action)
    requires a.ListBreakpoints? || a.ConnectTarget?
    ensures Trim(Render(a).written) == Intent(a)
  {
    if a.ListBreakpoints? {
      assert Render(a).written == Intent(a) + (" " + LineEnd);
      TrimTrailing(Intent(a), " " + LineEnd);
    } else {
      TrimTrailing(Intent(a), LineEnd);
    }
  }

  /** The announced text names the command that was written for every action that announces
      one, restart being the one exception. */
  lemma EchoCarriesIntentUnlessRestart(a: Action)
    requires TidyArguments(a)
    requires !a.LoadSymbols?
    ensures Trim(Render(a).echoed.value) == Intent(a) <==> !a.Restart?
  {
    if a.Restart? {
      RestartEchoNamesResume();
    } else if a.Halt? || a.ContinueToBreakpoint? || a.StepLine? {
      EchoCarriesIntentSpaced(a);
    } else if a.ListBreakpoints? || a.ConnectTarget? {
      EchoCarriesIntentFixed(a);
    } else {
      WrittenCarriesIntentArgument(a);
    }
  }

  lemma RestartEchoNamesResume()
    ensures Trim(Render(Restart).echoed.value) == "monitor reset resume" != Intent(Restart)
  {
    TrimTrailing("monitor reset resume", LineEnd);
    assert "monitor reset resume"[15] != "monitor reset run"[15];
  }

  lemma EchoCarriesIntentSpaced(a: Action)
    requires a.Halt? || a.ContinueToBreakpoint? || a.StepLine?
    ensures Trim(Render(a).echoed.value) == Intent(a)
  {
    TrimTrailing(Intent(a), LineEnd);
  }

  lemma EchoCarriesIntentFixed(a: Action)
    requires a.ListBreakpoints? || a.ConnectTarget?
    ensures Trim(Render(a).echoed.value) == Intent(a)
  {
    TrimTrailing(Intent(a), LineEnd);
  }

}

=== FILE: debug_session.dfy ===
/**
 The observable traffic of one debug session: the lines written to the debugger's standard
 input, in order, and the events published to the host, in order. Debug actions append to
 both; the output relay turns each chunk read from the debugger's stdout or stderr into one
 event.
 */
module DebugSession {
  import opened Optional
  import opened DebugCommands

  /** An event of the debug domain: `debug_data` or `debug_err`, with its text payload. */
  datatype Event = DebugData(text: string) | DebugErr(text: string)

  datatype Session = Session(writes: seq<string>, events: seq<Event>)

  const Empty := Session([], [])

  /** The events an action emits: its announced text as one `debug_data` event, or nothing. */
  function Announcements(c: Command): (es: seq<Event>)
    ensures |es| <= 1
    ensures es == [] <==> c.echoed.None?
    ensures es != [] ==> es[0] == DebugData(c.echoed.value)
  {
    match c.echoed
    case Some(text) => [DebugData(text)]
    case None => []
  }

  /** Carry out one debug action: write its line and publish its announcement. */
  function Perform(s: Session, a: Action): (s': Session)
    ensures s'.writes == s.writes + [Render(a).written]
    ensures s'.events == s.events + Announcements(Render(a))
  {
    var c := Render(a);
    Session(s.writes + [c.written], s.events + Announcements(c))
  }

  /** Loading the symbol file writes its line and publishes nothing; connecting to the target
      publishes exactly the line it writes. */
  lemma SymbolLoadIsSilent(s: Session, path: string)
    ensures Perform(s, LoadSymbols(path)).events == s.events
    ensures Perform(s, ConnectTarget).events == s.events + [DebugData(Perform(s, ConnectTarget).writes[|s.writes|])]
  {
  }

  function PerformAll(s: Session, actions: seq<Action>): Session
    decreases |actions|
  {
    if actions == [] then s else PerformAll(Perform(s, actions[0]), actions[1..])
  }

  /** The lines a sequence of actions writes, one per action, in order. */
  function Lines(actions: seq<Action>): seq<string> {
    if actions == [] then [] else [Render(actions[0]).written] + Lines(actions[1..])
  }

  /** Writes to the debugger's stdin keep call order: after a run of actions the session has
      written exactly their lines, one each, after whatever it had written before. */
  lemma {:induction false} PerformAllWritesInOrder(s: Session, actions: seq<Action>)
    ensures PerformAll(s, actions).writes == s.writes + Lines(actions)
    decreases |actions|
  {
    if actions == [] {
      assert s.writes + [] == s.writes;
    } else {
      var s1 := Perform(s, actions[0]);
      PerformAllWritesInOrder(s1, actions[1..]);
      AppendInOrder(s.writes, Render(actions[0]).written, Lines(actions[1..]), s1.writes);
    }
  }

  lemma AppendInOrder(before: seq<string>, line: string, rest: seq<string>, after: seq<string>)
    requires after == before + [line]
    ensures after + rest == before + ([line] + rest)
  {
  }

  /** A chunk read from one of the debugger's output streams. */
  datatype Chunk = Stdout(text: string) | Stderr(text: string)

  /** The event the relay publishes for one chunk. */
  function RelayChunk(c: Chunk): (e: Event)
    ensures e.DebugData? <==> c.Stdout?
    ensures e.text == c.text
  {
    match c
    case Stdout(text) => DebugData(text)
    case Stderr(text) => DebugErr(text)
  }

  /** The events the relay publishes for chunks arriving in this order. */
  function RelayEvents(chunks: seq<Chunk>): (es: seq<Event>)
    ensures |es| == |chunks|
    ensures forall i :: 0 <= i < |chunks| ==> es[i] == RelayChunk(chunks[i])
  {
    if chunks == [] then [] else [RelayChunk(chunks[0])] + RelayEvents(chunks[1..])
  }

  /** The relay publishes events and writes nothing. */
  function Relay(s: Session, chunks: seq<Chunk>): (s': Session)
    ensures s'.writes == s.writes
    ensures |s'.events| == |s.events| + |chunks|
    ensures s'.events[..|s.events|] == s.events
    ensures s'.events == s.events + RelayEvents(chunks)
  {
    s.(events := s.events + RelayEvents(chunks))
  }

  /** The payloads of the `debug_data` events, in order. */
  function DataTexts(es: seq<Event>): seq<string> {
    if es == [] then []
    else (if es[0].DebugData? then [es[0].text] else []) + DataTexts(es[1..])
  }

  /** The payloads of the `debug_err` events, in order. */
  function ErrTexts(es: seq<Event>): seq<string> {
    if es == [] then []
    else (if es[0].DebugErr? then [es[0].text] else []) + ErrTexts(es[1..])
  }

  function StdoutTexts(cs: seq<Chunk>): seq<string> {
    if cs == [] then []
    else (if cs[0].Stdout? then [cs[0].text] else []) + StdoutTexts(cs[1..])
  }

  function StderrTexts(cs: seq<Chunk>): seq<string> {
    if cs == [] then []
    else (if cs[0].Stderr? then [cs[0].text] else []) + StderrTexts(cs[1..])
  }

  /** The two channels are never crossed: the `debug_data` payloads are exactly the stdout
      chunks and the `debug_err` payloads exactly the stderr chunks, each unchanged and in
      arrival order. */
  lemma {:induction false} RelayKeepsChannelsApart(chunks: seq<Chunk>)
    ensures DataTexts(RelayEvents(chunks)) == StdoutTexts(chunks)
    ensures ErrTexts(RelayEvents(chunks)) == StderrTexts(chunks)
    decreases |chunks|
  {
    if chunks != [] {
      var es := RelayEvents(chunks);
      assert es[1..] == RelayEvents(chunks[1..]);
      RelayKeepsChannelsApart(chunks[1..]);
    }
  }

}

=== FILE: js_text.dfy ===
/**
 The small part of JavaScript's string and number semantics that the bridge relies on:
 rendering an integer as text (`"b " + line`), and `parseInt` as applied to baud rates.
 */
module JsText {

  /** A JavaScript number as this model meets it: an integer value, or NaN. */
  datatype Number = Int(value: int) | NaN

  predicate IsDigit(c: char) {
    '0' <= c <= '9'
  }

  /** The white space `parseInt` skips before a number: ECMAScript's WhiteSpace (tab, vertical
      tab, form feed, space, no-break space, byte order mark and the other space separators of
      Unicode category Zs) and LineTerminator (line feed, carriage return, line and paragraph
      separators). */
  predicate IsSpace(c: char) {
    var k := c as int;
    k == 0x09 || k == 0x0A || k == 0x0B || k == 0x0C || k == 0x0D || k == 0x20
    || k == 0xA0 || k == 0x1680 || 0x2000 <= k <= 0x200A || k == 0x2028 || k == 0x2029
    || k == 0x202F || k == 0x205F || k == 0x3000 || k == 0xFEFF
  }

  predicate AllDigits(s: string) {
    forall i :: 0 <= i < |s| ==> IsDigit(s[i])
  }

  function DigitChar(d: nat): (c: char)
    requires d < 10
    ensures IsDigit(c)
  {
    (('0' as int) + d) as char
  }

  function DigitValue(c: char): (d: nat)
    requires IsDigit(c)
    ensures d < 10
  {
    (c as int) - ('0' as int)
  }

  /** The decimal digits of a natural number, most significant first, without leading zeros. */
  function NatDigits(n: nat): (s: string)
    ensures |s| > 0 && AllDigits(s)
    ensures |s| > 1 ==> s[0] != '0'
    decreases n
  {
    if n < 10 then [DigitChar(n)] else NatDigits(n / 10) + [DigitChar(n % 10)]
  }

  /** `String(n)` for an integer-valued number: an optional minus sign, then the digits. */
  function DecimalString(n: int): (s: string)
    ensures |s| > 0 && IsDigit(s[|s| - 1])
    ensures n >= 0 <==> IsDigit(s[0])
    ensures n < 0 <==> s[0] == '-'
  {
    if n < 0 then "-" + NatDigits(-n) else NatDigits(n)
  }

  /** The value of a string of decimal digits. */
  function DigitsValue(s: string): nat
    requires AllDigits(s)
  {
    if |s| == 0 then 0 else DigitsValue(s[..|s| - 1]) * 10 + DigitValue(s[|s| - 1])
  }

  /** The length of the longest prefix of `s` made of decimal digits. */
  function DigitRun(s: string): (k: nat)
    ensures k <= |s| && AllDigits(s[..k])
    ensures k < |s| ==> !IsDigit(s[k])
  {
    if |s| == 0 || !IsDigit(s[0]) then 0 else 1 + DigitRun(s[1..])
  }

  /** `s` without its leading white space. */
  function TrimStart(s: string): (r: string)
    ensures |r| <= |s| && r == s[|s| - |r|..]
    ensures r == "" || !IsSpace(r[0])
    ensures forall i :: 0 <= i < |s| - |r| ==> IsSpace(s[i])
  {
    if |s| > 0 && IsSpace(s[0]) then TrimStart(s[1..]) else s
  }

  /** The number a run of digits at the start of `body` denotes, or NaN without one. */
  function ReadMagnitude(body: string): (r: Number)
    ensures r.Int? <==> |body| > 0 && IsDigit(body[0])
    ensures r.Int? ==> r.value >= 0
  {
    var k := DigitRun(body);
    if k == 0 then NaN else Int(DigitsValue(body[..k]))
  }

  function Negate(x: Number): Number {
    match x
    case Int(v) => Int(-v)
    case NaN => NaN
  }

  /** `parseInt(s)` with no radix, for decimal text: leading white space is skipped, one sign
      is accepted, then the longest run of digits is read; text after the run is ignored and
      no digits at all give NaN. A number is found only where the text has a digit, and text
      starting with a digit always gives a non-negative number. */
  function ParseInt(s: string): (r: Number)
    ensures r.Int? ==> exists i :: 0 <= i < |s| && IsDigit(s[i])
    ensures |s| > 0 && IsDigit(s[0]) ==> r.Int? && r.value >= 0
  {
    var t := TrimStart(s);
    var at := |s| - |t|;
    assert |s| > 0 && IsDigit(s[0]) ==> t == s;
    if |t| > 0 && (t[0] == '-' || t[0] == '+') then
      var m := ReadMagnitude(t[1..]);
      assert m.Int? ==> IsDigit(s[at + 1]);
      if t[0] == '-' then Negate(m) else m
    else
      assert ReadMagnitude(t).Int? ==> IsDigit(s[at]);
      ReadMagnitude(t)
  }

  /** A white-space character before a number is skipped, whichever one it is. */
  lemma LeadingSpaceSkipped(c: char, n: int)
    requires IsSpace(c)
    ensures ParseInt([c] + DecimalString(n)) == Int(n)
  {
    ParseSkipsSpace(c, DecimalString(n));
    ParseDecimalString(n);
  }

  lemma ParseSkipsSpace(c: char, s: string)
    requires IsSpace(c)
    ensures ParseInt([c] + s) == ParseInt(s)
  {
    assert ([c] + s)[1..] == s;
    assert TrimStart([c] + s) == TrimStart(s);
  }

  /** A no-break space before a number reads as the number, as in JavaScript. */
  lemma NoBreakSpaceSkipped(n: int)
    ensures ParseInt(['\U{00A0}'] + DecimalString(n)) == Int(n)
  {
    LeadingSpaceSkipped('\U{00A0}', n);
  }

  /** Text without a digit is NaN to `parseInt`. */
  lemma NoDigitNoNumber(s: string)
    requires forall i :: 0 <= i < |s| ==> !IsDigit(s[i])
    ensures ParseInt(s) == NaN
  {
  }

  lemma {:induction false} DigitsValueOfNatDigits(n: nat)
    ensures DigitsValue(NatDigits(n)) == n
    decreases n
  {
    var s := NatDigits(n);
    if n < 10 {
      assert s[..|s| - 1] == [];
    } else {
      assert s[..|s| - 1] == NatDigits(n / 10);
      DigitsValueOfNatDigits(n / 10);
    }
  }

  lemma {:induction false} DigitRunOfDigits(d: string, rest: string)
    requires AllDigits(d)
    requires rest == "" || !IsDigit(rest[0])
    ensures DigitRun(d + rest) == |d|
    decreases |d|
  {
    if |d| > 0 {
      assert (d + rest)[1..] == d[1..] + rest;
      DigitRunOfDigits(d[1..], rest);
    }
  }

  /** A run of digits followed by a non-digit is read as the value of the run. */
  lemma ReadMagnitudeOfDigits(d: string, rest: string)
    requires d != "" && AllDigits(d)
    requires rest == "" || !IsDigit(rest[0])
    ensures ReadMagnitude(d + rest) == Int(DigitsValue(d))
  {
    DigitRunOfDigits(d, rest);
    assert (d + rest)[..|d|] == d;
  }

  /** `parseInt` reads back what `String` wrote for an integer, whatever non-digit text follows it. */
  lemma ParseDecimalPrefix(n: int, rest: string)
    requires rest == "" || !IsDigit(rest[0])
    ensures ParseInt(DecimalString(n) + rest) == Int(n)
  {
    var magnitude: nat := if n < 0 then -n else n;
    var d := NatDigits(magnitude);
    DigitsValueOfNatDigits(magnitude);
    if n < 0 {
      SignThenDigits(d, rest);
      ParseNegativeDigits(d, rest);
    } else {
      ParseDigits(d, rest);
    }
  }

  lemma SignThenDigits(d: string, rest: string)
    ensures ("-" + d) + rest == "-" + (d + rest)
  {
  }

  lemma ParseDigits(d: string, rest: string)
    requires d != "" && AllDigits(d)
    requires rest == "" || !IsDigit(rest[0])
    ensures ParseInt(d + rest) == Int(DigitsValue(d))
  {
    ReadMagnitudeOfDigits(d, rest);
    assert IsDigit((d + rest)[0]);
    TrimStartKeeps(d + rest);
  }

  lemma TrimStartKeeps(s: string)
    requires s != "" && !IsSpace(s[0])
    ensures TrimStart(s) == s
  {
  }

  lemma ParseNegativeDigits(d: string, rest: string)
    requires d != "" && AllDigits(d)
    requires rest == "" || !IsDigit(rest[0])
    ensures ParseInt("-" + (d + rest)) == Int(-(DigitsValue(d) as int))
  {
    ReadMagnitudeOfDigits(d, rest);
    ParseNegative(d + rest, DigitsValue(d));
  }

  /** A leading minus sign negates the magnitude that follows it. */
  lemma ParseNegative(body: string, v: int)
    requires ReadMagnitude(body) == Int(v)
    ensures ParseInt("-" + body) == Int(-v)
  {
    var t := "-" + body;
    SignedStart(body);
    assert |t| > 0 && t[0] == '-';
  }

  lemma SignedStart(body: string)
    ensures TrimStart("-" + body) == "-" + body
    ensures ("-" + body)[1..] == body
  {
    TrimStartKeeps("-" + body);
  }

  /** The round trip `parseInt(String(n)) == n`. */
  lemma ParseDecimalString(n: int)
    ensures ParseInt(DecimalString(n)) == Int(n)
  {
    assert DecimalString(n) + "" == DecimalString(n);
    ParseDecimalPrefix(n, "");
  }

}

=== FILE: optional.dfy ===
/** A value that may be absent: an unset port, an action without an echo, a message that is not sent. */
module Optional {

  datatype Option<+T> = None | Some(value: T)

}

=== FILE: serial_framing.dfy ===
/**
 Framing of a message typed into the serial monitor before it is sent: every line break is
 removed (the global replacement of `\r\n`, `\n` and `\r` by nothing), then the terminator
 chosen by the end-of-line setting is appended. An empty message is not sent at all.
 */
module SerialFraming {
  import opened Optional

  predicate IsLineBreak(c: char) {
    c == '\r' || c == '\n'
  }

  predicate NoLineBreaks(s: string) {
    forall i :: 0 <= i < |s| ==> !IsLineBreak(s[i])
  }

  /** The replacement as the regular expression performs it: scanning left to right, a `\r\n`
      pair is matched first, then a lone `\n` or `\r`; every match is replaced by nothing. */
  function StripLineBreaks(s: string): (r: string)
    ensures NoLineBreaks(r)
    ensures |r| <= |s|
    ensures NoLineBreaks(s) ==> r == s
    decreases |s|
  {
    if |s| == 0 then ""
    else if |s| >= 2 && s[0] == '\r' && s[1] == '\n' then StripLineBreaks(s[2..])
    else if s[0] == '\n' || s[0] == '\r' then StripLineBreaks(s[1..])
    else [s[0]] + StripLineBreaks(s[1..])
  }

  /** Reference definition: the characters of `s` that are not line breaks, in order. */
  function WithoutLineBreaks(s: string): string {
    if |s| == 0 then ""
    else (if IsLineBreak(s[0]) then "" else [s[0]]) + WithoutLineBreaks(s[1..])
  }

  /** The regular-expression replacement removes exactly the line-break characters and keeps
      every other character, in order. */
  lemma {:induction false} StripIsFilter(s: string)
    ensures StripLineBreaks(s) == WithoutLineBreaks(s)
    decreases |s|
  {
    if |s| >= 2 && s[0] == '\r' && s[1] == '\n' {
      StripIsFilter(s[2..]);
      assert s[1..][1..] == s[2..];
    } else if |s| > 0 {
      StripIsFilter(s[1..]);
    }
  }

  lemma StripIdempotent(s: string)
    ensures StripLineBreaks(StripLineBreaks(s)) == StripLineBreaks(s)
  {
  }

  /** The terminator for an end-of-line setting; a setting the switch does not name adds nothing. */
  function Terminator(eol: string): (t: string)
    ensures |t| <= 2 && (forall i :: 0 <= i < |t| ==> IsLineBreak(t[i]))
    ensures eol == "NL" ==> t == "\n"
    ensures eol == "CR" ==> t == "\r"
    ensures eol == "NLCR" ==> t == "\r\n"
    ensures eol !in {"NL", "CR", "NLCR"} ==> t == ""
  {
    match eol
    case "NL" => "\n"
    case "CR" => "\r"
    case "NLCR" => "\r\n"
    case "NA" => ""
    case _ => ""
  }

  /** What the send button sends for a message: nothing for an empty message, otherwise the
      message without line breaks followed by the terminator. */
  function Frame(message: string, eol: string): (r: Option<string>)
    ensures r.None? <==> message == ""
    ensures r.Some? ==> |r.value| >= |Terminator(eol)|
    ensures r.Some? ==> r.value[|r.value| - |Terminator(eol)|..] == Terminator(eol)
    ensures r.Some? ==> NoLineBreaks(r.value[..|r.value| - |Terminator(eol)|])
  {
    if message == "" then None
    else
      var body := StripLineBreaks(message);
      assert (body + Terminator(eol))[..|body|] == body;
      Some(body + Terminator(eol))
  }

  /** The framed text is the message's non-break characters, then the terminator. */
  lemma FrameContent(message: string, eol: string)
    requires message != ""
    ensures Frame(message, eol) == Some(WithoutLineBreaks(message) + Terminator(eol))
  {
    StripIsFilter(message);
  }

  /** A message made only of line breaks is not empty, so it is sent, as the bare terminator. */
  lemma LineBreaksOnlySendTerminator(message: string, eol: string)
    requires message != ""
    requires forall i :: 0 <= i < |message| ==> IsLineBreak(message[i])
    ensures Frame(message, eol) == Some(Terminator(eol))
  {
    BreaksOnlyStripToEmpty(message);
  }

  lemma {:induction false} BreaksOnlyStripToEmpty(s: string)
    requires forall i :: 0 <= i < |s| ==> IsLineBreak(s[i])
    ensures StripLineBreaks(s) == ""
    decreases |s|
  {
    if |s| >= 2 && s[0] == '\r' && s[1] == '\n' {
      BreaksOnlyStripToEmpty(s[2..]);
    } else if |s| > 0 {
      BreaksOnlyStripToEmpty(s[1..]);
    }
  }

  /** The text before the first line break. */
  function FirstLine(s: string): (r: string)
    ensures |r| <= |s| && r == s[..|r|]
    ensures NoLineBreaks(r)
  {
    if |s| == 0 || IsLineBreak(s[0]) then "" else [s[0]] + FirstLine(s[1..])
  }

  lemma {:induction false} FirstLineOfBreak(body: string, t: string)
    requires NoLineBreaks(body)
    requires t != "" && IsLineBreak(t[0])
    ensures FirstLine(body + t) == body
    decreases |body|
  {
    if |body| > 0 {
      assert (body + t)[1..] == body[1..] + t;
      FirstLineOfBreak(body[1..], t);
    }
  }

  /** Round trip for the receiving side: with a terminator that ends the line, reading the
      sent text up to its first line break gives back the message, provided the message had
      no line breaks of its own. */
  lemma FramedLineReadsBack(message: string, eol: string)
    requires message != "" && NoLineBreaks(message)
    requires eol in {"NL", "CR", "NLCR"}
    ensures FirstLine(Frame(message, eol).value) == message
  {
    FirstLineOfBreak(message, Terminator(eol));
  }

}

=== FILE: serial_panel.dfy ===
/**
 The serial monitor's panel and port state: whether the panel is visible, the selected port,
 the stored baud rate and end-of-line setting. Operations append the requests they put to the
 serial domain (`open`, `close`, `send`) and the console notices their callbacks produce. The
 outcome of each request is an input, as are the preference values read on a toggle.
 */
module SerialPanel {
  import opened Optional
  import JsText
  import SerialFraming

  /** A serial port as the board options describe it. */
  datatype Port = Port(address: string)

  /** The stored baud rate: unset, text from the preferences, a number after a change in the
      baud selector, or NaN when that selection does not parse. */
  datatype Baud = Unset | Text(text: string) | Number(n: int) | NotANumber

  /** A request to the serial domain. */
  datatype Request = Open(address: string, baud: JsText.Number) | Close(address: string) | Send(message: string)

  /** How the serial domain answers a request; a rejection whose reason is empty stands for
      any rejection with a falsy reason. */
  datatype Reply = Done | Rejected(reason: string)

  /** A line sent to the IDE console, or the clearing of the monitor's text areas. */
  datatype Notice = Log(text: string) | Error(text: string) | Cleared

  datatype Monitor = Monitor(
    visible: bool,
    port: Option<Port>,
    rate: Baud,
    eol: string,
    requests: seq<Request>,
    notices: seq<Notice>)

  const Prefix := "[arduino ide - serial monitor]"
  const OpenGuardError := "Serial port or baud rate not specified"
  const CloseGuardError := "Serial port not specified"

  /** The monitor as constructed: panel hidden, port from the board options, rate and
      end-of-line setting from the preferences, nothing requested yet. */
  function Init(port: Option<Port>, prefRate: Baud, prefEol: string): (m: Monitor)
    ensures !m.visible && m.requests == [] && m.notices == []
    ensures m.port == port && m.rate == prefRate && m.eol == prefEol
  {
    Monitor(false, port, prefRate, prefEol, [], [])
  }

  /** A stored rate passes the guards: it is truthy and not the empty string. */
  predicate IsSet(b: Baud) {
    match b
    case Text(text) => text != ""
    case Number(n) => n != 0
    case Unset => false
    case NotANumber => false
  }

  /** Both guards of `openSerialPort` and `closeSerialPort`: a port and a stored rate. */
  predicate Ready(port: Option<Port>, stored: Baud) {
    port.Some? && IsSet(stored)
  }

  /** The rate as `parseInt` sees it after converting it to a string. */
  function BaudText(b: Baud): string {
    match b
    case Text(text) => text
    case Number(n) => JsText.DecimalString(n)
    case Unset => "undefined"
    case NotANumber => "NaN"
  }

  /** `parseInt(serialPortRate)`, the baud argument of an open request: a numeric rate is
      sent as that number, text from the preferences as `parseInt` reads it, and an unset or
      NaN rate as NaN. */
  function BaudArgument(b: Baud): (r: JsText.Number)
    ensures b.Number? ==> r == JsText.Int(b.n)
    ensures b.Text? ==> r == JsText.ParseInt(b.text)
    ensures b.Unset? || b.NotANumber? ==> r.NaN?
  {
    match b
    case Number(n) =>
      JsText.ParseDecimalString(n);
      JsText.ParseInt(BaudText(b))
    case Unset =>
      JsText.NoDigitNoNumber("undefined");
      JsText.ParseInt(BaudText(b))
    case NotANumber =>
      JsText.NoDigitNoNumber("NaN");
      JsText.ParseInt(BaudText(b))
    case Text(_) => JsText.ParseInt(BaudText(b))
  }

  /** What one call of `openSerialPort` or `closeSerialPort` does: the requests it issues and
      the error its callback receives, `None` for success. */
  datatype Attempt = Attempt(issued: seq<Request>, err: Option<string>)

  /** The callbacks' `if (err)`: an error counts only when it is a non-empty string. */
  predicate Failed(a: Attempt) {
    a.err.Some? && a.err.value != ""
  }

  function Outcome(reply: Reply): Option<string> {
    match reply
    case Done => None
    case Rejected(reason) => Some(reason)
  }

  /** `openSerialPort(port, rate, callback)`: the guard and the baud come from the stored rate;
      the `rate` argument is not used. */
  function OpenPort(port: Option<Port>, rate: Baud, stored: Baud, reply: Reply): (a: Attempt)
    ensures a.issued != [] <==> Ready(port, stored)
    ensures Ready(port, stored) ==> a.issued == [Open(port.value.address, BaudArgument(stored))]
    ensures Ready(port, stored) ==> a.err == Outcome(reply)
    ensures !Ready(port, stored) ==> a.err == Some(OpenGuardError) && Failed(a)
  {
    if Ready(port, stored) then Attempt([Open(port.value.address, BaudArgument(stored))], Outcome(reply))
    else Attempt([], Some(OpenGuardError))
  }

  /** `closeSerialPort(port, callback)`: the same guard as opening, stored rate included. */
  function ClosePort(port: Option<Port>, stored: Baud, reply: Reply): (a: Attempt)
    ensures a.issued != [] <==> Ready(port, stored)
    ensures Ready(port, stored) ==> a.issued == [Close(port.value.address)]
    ensures Ready(port, stored) ==> a.err == Outcome(reply)
    ensures !Ready(port, stored) ==> a.err == Some(CloseGuardError) && Failed(a)
  {
    if Ready(port, stored) then Attempt([Close(port.value.address)], Outcome(reply))
    else Attempt([], Some(CloseGuardError))
  }

  /** The opening rate is never looked at: only the stored rate decides. */
  lemma OpenIgnoresRateArgument(port: Option<Port>, r1: Baud, r2: Baud, stored: Baud, reply: Reply)
    ensures OpenPort(port, r1, stored, reply) == OpenPort(port, r2, stored, reply)
  {
  }

  /** Closing needs a stored rate as well: with a port but no rate it issues nothing and
      reports the port as missing. */
  lemma CloseNeedsRate(p: Port, stored: Baud, reply: Reply)
    requires !IsSet(stored)
    ensures ClosePort(Some(p), stored, reply) == Attempt([], Some("Serial port not specified"))
  {
  }

  /** The console texts of the callbacks in `togglePanel` and `changeParameter`. */
  function ConnectedTo(address: string): string {
    Prefix + " Serial monitor connected to " + address
  }

  function DisconnectedFrom(address: string): string {
    Prefix + " Serial monitor disconnected from " + address
  }

  function OpeningError(err: string): string {
    Prefix + " Error in serial port opening: " + err
  }

  function ClosingError(err: string): string {
    Prefix + " Error in serial port closing: " + err
  }

  /** The serial domain's reply as the callbacks' `if (err)` reads it: no error at all, or a
      rejection whose reason is falsy. */
  predicate Accepted(reply: Reply) {
    reply.Done? || reply.reason == ""
  }

  /** Close `closing`, then open the selected port, and report the outcome of the open; when
      the close failed too, the open's error is reported as a closing error. */
  function Reconnect(m: Monitor, closing: Option<Port>, closeReply: Reply, openReply: Reply): (m': Monitor)
    ensures m'.visible == m.visible && m'.port == m.port && m'.rate == m.rate && m'.eol == m.eol
    ensures m'.requests == m.requests + ClosePort(closing, m.rate, closeReply).issued
                                      + OpenPort(m.port, m.rate, m.rate, openReply).issued
    ensures |m'.notices| > |m.notices| && m'.notices[..|m.notices|] == m.notices
    ensures Ready(m.port, m.rate) && Accepted(openReply) ==>
              m'.notices == m.notices + [Cleared, Log(ConnectedTo(m.port.value.address))]
    ensures Ready(m.port, m.rate) && !Accepted(openReply) && !Failed(ClosePort(closing, m.rate, closeReply)) ==>
              m'.notices == m.notices + [Error(OpeningError(openReply.reason))]
    ensures Ready(m.port, m.rate) && !Accepted(openReply) && Failed(ClosePort(closing, m.rate, closeReply)) ==>
              m'.notices == m.notices + [Error(ClosingError(openReply.reason))]
    ensures !Ready(m.port, m.rate) && !Failed(ClosePort(closing, m.rate, closeReply)) ==>
              m'.notices == m.notices + [Error(OpeningError(OpenGuardError))]
    ensures !Ready(m.port, m.rate) && Failed(ClosePort(closing, m.rate, closeReply)) ==>
              m'.notices == m.notices + [Error(ClosingError(OpenGuardError))]
  {
    var c := ClosePort(closing, m.rate, closeReply);
    var o := OpenPort(m.port, m.rate, m.rate, openReply);
    var notices :=
      if !Failed(o) then [Cleared, Log(ConnectedTo(m.port.value.address))]
      else if Failed(c) then [Error(ClosingError(o.err.value))]
      else [Error(OpeningError(o.err.value))];
    m.(requests := m.requests + c.issued + o.issued, notices := m.notices + notices)
  }

  /** `changeParameter`: while the panel is visible, close the port and then open it, whether
      or not closing failed; while it is hidden, nothing. */
  function ChangeParameter(m: Monitor, closeReply: Reply, openReply: Reply): (m': Monitor)
    ensures m'.visible == m.visible && m'.port == m.port && m'.rate == m.rate && m'.eol == m.eol
    ensures !m.visible ==> m' == m
    ensures m.visible && Ready(m.port, m.rate) ==>
              m'.requests == m.requests + [Close(m.port.value.address), Open(m.port.value.address, BaudArgument(m.rate))]
    ensures m.visible && !Ready(m.port, m.rate) ==> m'.requests == m.requests
    ensures m.visible && Ready(m.port, m.rate) && Accepted(openReply) ==>
              m'.notices == m.notices + [Cleared, Log(ConnectedTo(m.port.value.address))]
    ensures m.visible && Ready(m.port, m.rate) && !Accepted(openReply) && Accepted(closeReply) ==>
              m'.notices == m.notices + [Error(OpeningError(openReply.reason))]
    ensures m.visible && Ready(m.port, m.rate) && !Accepted(openReply) && !Accepted(closeReply) ==>
              m'.notices == m.notices + [Error(ClosingError(openReply.reason))]
    ensures m.visible && !Ready(m.port, m.rate) ==>
              m'.notices == m.notices + [Error(ClosingError(OpenGuardError))]
  {
    if !m.visible then m else Reconnect(m, m.port, closeReply, openReply)
  }

  /** The close outcome never changes which requests are issued. */
  lemma ReopenDespiteCloseFailure(m: Monitor, r1: Reply, r2: Reply, openReply: Reply)
    ensures ChangeParameter(m, r1, openReply).requests == ChangeParameter(m, r2, openReply).requests
  {
  }

  /** After a failed close, a failed reopen is reported as a closing error. */
  lemma FailedReopenAfterFailedCloseReadsAsClosing(m: Monitor, p: Port, why: string, reason: string)
    requires m.visible && m.port == Some(p) && IsSet(m.rate)
    requires why != "" && reason != ""
    ensures ChangeParameter(m, Rejected(why), Rejected(reason)).notices
              == m.notices + [Error(Prefix + " Error in serial port closing: " + reason)]
    ensures ChangeParameter(m, Done, Rejected(reason)).notices
              == m.notices + [Error(Prefix + " Error in serial port opening: " + reason)]
  {
  }

  /** `eventSerialPortChange`: a missing port, or the one already selected, is ignored;
      otherwise it becomes the selected port and the parameters are re-applied. */
  function PortChange(m: Monitor, port: Option<Port>, closeReply: Reply, openReply: Reply): (m': Monitor)
    ensures port.None? || port == m.port ==> m' == m
    ensures port.Some? ==> m'.port == port
    ensures m'.visible == m.visible && m'.rate == m.rate && m'.eol == m.eol
    ensures port.Some? && port != m.port && !m.visible ==> m' == m.(port := port)
    ensures port.Some? && port != m.port && m.visible && IsSet(m.rate) ==>
              m'.requests == m.requests + [Close(port.value.address), Open(port.value.address, BaudArgument(m.rate))]
    ensures port.Some? && port != m.port && m.visible && !IsSet(m.rate) ==>
              m'.requests == m.requests && m'.notices == m.notices + [Error(ClosingError(OpenGuardError))]
    ensures port.Some? && port != m.port && m.visible && IsSet(m.rate) && Accepted(openReply) ==>
              m'.notices == m.notices + [Cleared, Log(ConnectedTo(port.value.address))]
    ensures port.Some? && port != m.port && m.visible && IsSet(m.rate) && !Accepted(openReply) && Accepted(closeReply) ==>
              m'.notices == m.notices + [Error(OpeningError(openReply.reason))]
    ensures port.Some? && port != m.port && m.visible && IsSet(m.rate) && !Accepted(openReply) && !Accepted(closeReply) ==>
              m'.notices == m.notices + [Error(ClosingError(openReply.reason))]
  {
    if port.Some? && port != m.port then ChangeParameter(m.(port := port), closeReply, openReply)
    else m
  }

  /** The port change as evidently intended: the port that was open is closed, then the new
      one is opened. */
  function PortSwitch(m: Monitor, port: Option<Port>, closeReply: Reply, openReply: Reply): (m': Monitor)
    ensures port.None? || port == m.port ==> m' == m
    ensures port.Some? ==> m'.port == port
    ensures m'.visible == m.visible && m'.rate == m.rate && m'.eol == m.eol
    ensures port.Some? && port != m.port && !m.visible ==> m' == m.(port := port)
    ensures port.Some? && port != m.port && m.visible && m.port.Some? && IsSet(m.rate) ==>
              m'.requests == m.requests + [Close(m.port.value.address), Open(port.value.address, BaudArgument(m.rate))]
    ensures port.Some? && port != m.port && m.visible && IsSet(m.rate) && Accepted(openReply) ==>
              m'.notices == m.notices + [Cleared, Log(ConnectedTo(port.value.address))]
    ensures port.Some? && port != m.port && m.visible && m.port.Some? && IsSet(m.rate)
              && !Accepted(openReply) && Accepted(closeReply) ==>
              m'.notices == m.notices + [Error(OpeningError(openReply.reason))]
    ensures port.Some? && port != m.port && m.visible && m.port.Some? && IsSet(m.rate)
              && !Accepted(openReply) && !Accepted(closeReply) ==>
              m'.notices == m.notices + [Error(ClosingError(openReply.reason))]
  {
    if port.None? || port == m.port then m
    else if !m.visible then m.(port := port)
    else Reconnect(m.(port := port), m.port, closeReply, openReply)
  }

  /** As written, moving a visible panel from one port to another never closes the first:
      both requests name the new port. */
  lemma PortChangeLeavesOldPortOpen(m: Monitor, p: Port, q: Port, closeReply: Reply, openReply: Reply)
    requires m.visible && m.port == Some(p) && IsSet(m.rate) && p.address != q.address
    ensures Close(p.address) !in PortChange(m, Some(q), closeReply, openReply).requests[|m.requests|..]
    ensures Close(p.address) in PortSwitch(m, Some(q), closeReply, openReply).requests[|m.requests|..]
  {
  }

  /** A repeated port-change event for the same port is ignored. */
  lemma PortChangeIdempotent(m: Monitor, port: Option<Port>, r1: Reply, r2: Reply, r3: Reply, r4: Reply)
    ensures var once := PortChange(m, port, r1, r2);
            PortChange(once, port, r3, r4) == once
  {
  }

  /** The rate a baud selection stores: the number `parseInt` reads from it, or NaN. */
  function SelectedRate(selected: string): (b: Baud)
    ensures b.Number? <==> JsText.ParseInt(selected).Int?
    ensures b.Number? ==> JsText.ParseInt(selected) == JsText.Int(b.n)
  {
    match JsText.ParseInt(selected) case Int(n) => Number(n) case NaN => NotANumber
  }

  /** The baud selector: the chosen value is parsed and stored, then parameters re-applied:
      on a visible panel the port is closed and reopened at the new rate, and the outcome is
      reported as `changeParameter` reports it. */
  function BaudChange(m: Monitor, selected: string, closeReply: Reply, openReply: Reply): (m': Monitor)
    ensures m'.visible == m.visible && m'.port == m.port && m'.eol == m.eol
    ensures m'.rate == SelectedRate(selected)
    ensures !m.visible ==> m' == m.(rate := SelectedRate(selected))
    ensures m.visible && Ready(m.port, m'.rate) ==>
              m'.requests == m.requests + [Close(m.port.value.address), Open(m.port.value.address, BaudArgument(m'.rate))]
    ensures !m.visible || !Ready(m.port, m'.rate) ==> m'.requests == m.requests
    ensures m.visible && Ready(m.port, m'.rate) && Accepted(openReply) ==>
              m'.notices == m.notices + [Cleared, Log(ConnectedTo(m.port.value.address))]
    ensures m.visible && Ready(m.port, m'.rate) && !Accepted(openReply) && Accepted(closeReply) ==>
              m'.notices == m.notices + [Error(OpeningError(openReply.reason))]
    ensures m.visible && Ready(m.port, m'.rate) && !Accepted(openReply) && !Accepted(closeReply) ==>
              m'.notices == m.notices + [Error(ClosingError(openReply.reason))]
    ensures m.visible && !Ready(m.port, m'.rate) ==>
              m'.notices == m.notices + [Error(ClosingError(OpenGuardError))]
  {
    ChangeParameter(m.(rate := SelectedRate(selected)), closeReply, openReply)
  }

  /** Choosing a non-zero rate in the baud selector of a visible panel closes the port and
      reopens it at exactly that rate. */
  lemma BaudChangeReopensAtChosenRate(m: Monitor, p: Port, n: int, closeReply: Reply, openReply: Reply)
    requires m.visible && m.port == Some(p) && n != 0
    ensures BaudChange(m, JsText.DecimalString(n), closeReply, openReply).requests
              == m.requests + [Close(p.address), Open(p.address, JsText.Int(n))]
  {
    JsText.ParseDecimalString(n);
  }

  /** The end-of-line selector only stores the new setting. */
  function EolChange(m: Monitor, selected: string): (m': Monitor)
    ensures m'.eol == selected
    ensures m'.visible == m.visible && m'.port == m.port && m'.rate == m.rate
    ensures m'.requests == m.requests && m'.notices == m.notices
  {
    m.(eol := selected)
  }

  /** The panel's close button hides the panel and leaves the port as it is. */
  function HidePanel(m: Monitor): (m': Monitor)
    ensures !m'.visible && m'.requests == m.requests && m'.port == m.port
    ensures m'.notices == m.notices && m'.rate == m.rate && m'.eol == m.eol
  {
    m.(visible := false)
  }

  /** While the panel is hidden, port and parameter changes issue no request. */
  lemma HiddenPanelIssuesNothing(m: Monitor, port: Option<Port>, selected: string, r1: Reply, r2: Reply)
    requires !m.visible
    ensures PortChange(m, port, r1, r2).requests == m.requests
    ensures BaudChange(m, selected, r1, r2).requests == m.requests
    ensures ChangeParameter(m, r1, r2) == m
  {
  }

  /** `togglePanel`: re-read the rate and end-of-line preferences, flip visibility, and close
      the port when hiding or open it when showing. */
  function TogglePanel(m: Monitor, prefRate: Baud, prefEol: string, reply: Reply): (m': Monitor)
    ensures m'.visible == !m.visible
    ensures m'.port == m.port && m'.rate == prefRate && m'.eol == prefEol
    ensures m.visible ==> m'.requests == m.requests + ClosePort(m.port, prefRate, reply).issued
    ensures !m.visible ==> m'.requests == m.requests + OpenPort(m.port, prefRate, prefRate, reply).issued
    ensures m.visible && Ready(m.port, prefRate) && Accepted(reply) ==>
              m'.notices == m.notices + [Log(DisconnectedFrom(m.port.value.address))]
    ensures m.visible && Ready(m.port, prefRate) && !Accepted(reply) ==>
              m'.notices == m.notices + [Error(ClosingError(reply.reason))]
    ensures m.visible && !Ready(m.port, prefRate) ==>
              m'.notices == m.notices + [Error(ClosingError(CloseGuardError))]
    ensures !m.visible && Ready(m.port, prefRate) && Accepted(reply) ==>
              m'.notices == m.notices + [Log(ConnectedTo(m.port.value.address))]
    ensures !m.visible && Ready(m.port, prefRate) && !Accepted(reply) ==>
              m'.notices == m.notices + [Error(OpeningError(reply.reason))]
    ensures !m.visible && !Ready(m.port, prefRate) ==>
              m'.notices == m.notices + [Error(OpeningError(OpenGuardError))]
  {
    var m1 := m.(rate := prefRate, eol := prefEol);
    if m.visible then
      var c := ClosePort(m1.port, m1.rate, reply);
      var notice :=
        if Failed(c) then Error(ClosingError(c.err.value))
        else Log(DisconnectedFrom(m1.port.value.address));
      m1.(visible := false, requests := m1.requests + c.issued, notices := m1.notices + [notice])
    else
      var o := OpenPort(m1.port, m1.rate, m1.rate, reply);
      var notice :=
        if Failed(o) then Error(OpeningError(o.err.value))
        else Log(ConnectedTo(m1.port.value.address));
      m1.(visible := true, requests := m1.requests + o.issued, notices := m1.notices + [notice])
  }

  /** Toggling twice restores visibility; from hidden, with a port and a rate, it opens and
      then closes that same port. */
  lemma ToggleTwice(m: Monitor, prefRate: Baud, prefEol: string, r1: Reply, r2: Reply)
    ensures var twice := TogglePanel(TogglePanel(m, prefRate, prefEol, r1), prefRate, prefEol, r2);
            twice.visible == m.visible && twice.port == m.port
    ensures !m.visible && Ready(m.port, prefRate) ==>
              TogglePanel(TogglePanel(m, prefRate, prefEol, r1), prefRate, prefEol, r2).requests
                == m.requests + [Open(m.port.value.address, BaudArgument(prefRate)), Close(m.port.value.address)]
  {
  }

  /** The send button: the framed message is sent, and an empty message sends nothing. */
  function SendMessage(m: Monitor, input: string): (m': Monitor)
    ensures input == "" ==> m' == m
    ensures input != "" ==> m'.requests == m.requests + [Send(SerialFraming.Frame(input, m.eol).value)]
    ensures m'.visible == m.visible && m'.port == m.port && m'.notices == m.notices
    ensures m'.rate == m.rate && m'.eol == m.eol
  {
    match SerialFraming.Frame(input, m.eol)
    case None => m
    case Some(text) => m.(requests := m.requests + [Send(text)])
  }

}

=== FILE: startup.dfy ===
/**
 The startup sequencer of `launchGdb`. When the spawned debugger has a process id, a timer
 fires after `Interval` milliseconds and loads the symbol file; only then is a second timer
 armed, which fires `Interval` milliseconds later and connects to the adapter's endpoint.
 Time advances in discrete ticks of one millisecond. Timers are kept in the order they were
 armed, so a second launch while a first sequence is pending is representable too.
 */
module Startup {
  import opened Optional
  import opened DebugCommands
  import opened DebugSession

  /** The delay between launch and loading symbols, and between that and connecting. */
  const Interval: nat := 2000

  datatype Job = LocateSymbols(elfPath: string) | LocateTarget

  datatype Timer = Timer(due: nat, job: Job)

  /** The debugger side of the bridge: a clock, the armed timers and the session traffic. */
  datatype Debugger = Debugger(now: nat, timers: seq<Timer>, session: Session)

  function JobAction(j: Job): Action {
    match j
    case LocateSymbols(path) => LoadSymbols(path)
    case LocateTarget => ConnectTarget
  }

  /** A process id the launch treats as started: present and not zero. */
  predicate HasPid(pid: Option<int>) {
    pid.Some? && pid.value != 0
  }

  /** `launchGdb(elf, folder)` once the process is spawned: with a process id the first timer
      is armed; without one nothing is scheduled. The launch itself writes nothing. */
  function LaunchGdb(d: Debugger, elfPath: string, pid: Option<int>): (d': Debugger)
    ensures d'.now == d.now && d'.session == d.session
    ensures HasPid(pid) ==> d'.timers == d.timers + [Timer(d.now + Interval, LocateSymbols(elfPath))]
    ensures !HasPid(pid) ==> d'.timers == d.timers
  {
    if HasPid(pid) then d.(timers := d.timers + [Timer(d.now + Interval, LocateSymbols(elfPath))])
    else d
  }

  /** What firing the due timers of one tick leaves: the timers kept, the timers newly armed
      by the ones that fired, and the session after their writes. */
  datatype Firing = Firing(kept: seq<Timer>, armed: seq<Timer>, session: Session)

  /** The timers not yet due at `now`, in arming order. */
  function Pending(timers: seq<Timer>, now: nat): seq<Timer> {
    if timers == [] then []
    else if timers[0].due > now then [timers[0]] + Pending(timers[1..], now)
    else Pending(timers[1..], now)
  }

  /** A timer stays pending exactly when it was armed and is not yet due. */
  lemma {:induction false} PendingKeepsNotDue(timers: seq<Timer>, now: nat)
    ensures forall i :: 0 <= i < |timers| && timers[i].due > now ==> timers[i] in Pending(timers, now)
    ensures forall t :: t in Pending(timers, now) ==> t in timers && t.due > now
    decreases |timers|
  {
    if timers != [] {
      PendingKeepsNotDue(timers[1..], now);
      forall i | 0 <= i < |timers| && timers[i].due > now
        ensures timers[i] in Pending(timers, now)
      {
        if i > 0 {
          assert timers[i] == timers[1..][i - 1];
        }
      }
      forall t | t in Pending(timers, now)
        ensures t in timers && t.due > now
      {
        if t != timers[0] {
          assert t in Pending(timers[1..], now);
        }
      }
    }
  }

  /** The actions of the timers due at `now`, in arming order. */
  function DueActions(timers: seq<Timer>, now: nat): seq<Action> {
    if timers == [] then []
    else if timers[0].due <= now then [JobAction(timers[0].job)] + DueActions(timers[1..], now)
    else DueActions(timers[1..], now)
  }

  /** How many of the timers due at `now` load symbols, and so arm a connect timer. */
  function DueLoads(timers: seq<Timer>, now: nat): nat {
    if timers == [] then 0
    else (if timers[0].due <= now && timers[0].job.LocateSymbols? then 1 else 0) + DueLoads(timers[1..], now)
  }

  /** Fire, in arming order, every timer due at `now`. Loading symbols arms the connect timer;
      connecting arms nothing. Every timer not yet due stays armed, in its order. */
  function FireDue(timers: seq<Timer>, now: nat, s: Session): (f: Firing)
    ensures forall i :: 0 <= i < |f.kept| ==> f.kept[i].due > now
    ensures f.kept == Pending(timers, now)
    ensures forall i :: 0 <= i < |f.armed| ==> f.armed[i] == Timer(now + Interval, LocateTarget)
    ensures |f.armed| == DueLoads(timers, now)
    ensures |f.kept| <= |timers|
    decreases |timers|
  {
    if timers == [] then Firing([], [], s)
    else
      var t := timers[0];
      if t.due <= now then
        var armed := if t.job.LocateSymbols? then [Timer(now + Interval, LocateTarget)] else [];
        var rest := FireDue(timers[1..], now, Perform(s, JobAction(t.job)));
        Firing(rest.kept, armed + rest.armed, rest.session)
      else
        var rest := FireDue(timers[1..], now, s);
        Firing([t] + rest.kept, rest.armed, rest.session)
  }

  /** Firing drops no timer that is not yet due, and keeps none that is. */
  lemma FireDueKeepsPending(timers: seq<Timer>, now: nat, s: Session)
    ensures var f := FireDue(timers, now, s);
            && (forall i :: 0 <= i < |timers| && timers[i].due > now ==> timers[i] in f.kept)
            && (forall t :: t in f.kept ==> t in timers && t.due > now)
  {
    PendingKeepsNotDue(timers, now);
  }

  /** Firing runs the job of every due timer, in arming order, and nothing else. */
  lemma {:induction false} FireDueRunsDueJobs(timers: seq<Timer>, now: nat, s: Session)
    ensures FireDue(timers, now, s).session == PerformAll(s, DueActions(timers, now))
    decreases |timers|
  {
    if timers != [] {
      var t := timers[0];
      if t.due <= now {
        FireDueRunsDueJobs(timers[1..], now, Perform(s, JobAction(t.job)));
        var due := DueActions(timers, now);
        assert due[0] == JobAction(t.job) && due[1..] == DueActions(timers[1..], now);
      } else {
        FireDueRunsDueJobs(timers[1..], now, s);
        assert DueActions(timers, now) == DueActions(timers[1..], now);
      }
    }
  }

  /** One millisecond passes and the timers due by then fire. */
  function Tick(d: Debugger): (d': Debugger)
    ensures d'.now == d.now + 1
    ensures forall i :: 0 <= i < |d'.timers| ==> d'.timers[i].due > d.now + 1
    ensures Pending(d.timers, d.now + 1) <= d'.timers
    ensures d.timers == [] ==> d' == d.(now := d.now + 1)
  {
    var f := FireDue(d.timers, d.now + 1, d.session);
    Debugger(d.now + 1, f.kept + f.armed, f.session)
  }

  /** A tick drops no timer that is due only after the next millisecond. */
  lemma TickKeepsPending(d: Debugger)
    ensures forall t :: t in d.timers && t.due > d.now + 1 ==> t in Tick(d).timers
  {
    PendingKeepsNotDue(d.timers, d.now + 1);
    forall t | t in d.timers && t.due > d.now + 1
      ensures t in Tick(d).timers
    {
      var i :| 0 <= i < |d.timers| && d.timers[i] == t;
      assert t in Pending(d.timers, d.now + 1);
    }
  }

  /** A tick writes and announces exactly what the jobs of the timers due by then do. */
  lemma TickRunsDueJobs(d: Debugger)
    ensures Tick(d).session == PerformAll(d.session, DueActions(d.timers, d.now + 1))
  {
    FireDueRunsDueJobs(d.timers, d.now + 1, d.session);
  }

  function Run(d: Debugger, ticks: nat): (d': Debugger)
    ensures d'.now == d.now + ticks
  {
    if ticks == 0 then d else Tick(Run(d, ticks - 1))
  }

  /** The state a single launch with a process id reaches `ticks` milliseconds later, from a
      debugger with no timers pending: the symbol load at `Interval`, the connect at twice it. */
  function AfterLaunch(d: Debugger, elfPath: string, ticks: nat): Debugger {
    if ticks < Interval then
      Debugger(d.now + ticks, [Timer(d.now + Interval, LocateSymbols(elfPath))], d.session)
    else if ticks < 2 * Interval then
      Debugger(d.now + ticks, [Timer(d.now + 2 * Interval, LocateTarget)],
               Perform(d.session, LoadSymbols(elfPath)))
    else
      Debugger(d.now + ticks, [], Perform(Perform(d.session, LoadSymbols(elfPath)), ConnectTarget))
  }

  /** Firing a single timer: it fires when due, and otherwise stays armed. */
  lemma FireOne(t: Timer, now: nat, s: Session)
    ensures t.due <= now && t.job.LocateSymbols? ==>
              FireDue([t], now, s) == Firing([], [Timer(now + Interval, LocateTarget)], Perform(s, JobAction(t.job)))
    ensures t.due <= now && t.job.LocateTarget? ==>
              FireDue([t], now, s) == Firing([], [], Perform(s, JobAction(t.job)))
    ensures t.due > now ==> FireDue([t], now, s) == Firing([t], [], s)
  {
    assert [t][1..] == [];
  }

  lemma {:induction false} LaunchFollowsSchedule(d: Debugger, elfPath: string, pid: Option<int>, ticks: nat)
    requires d.timers == [] && HasPid(pid)
    ensures Run(LaunchGdb(d, elfPath, pid), ticks) == AfterLaunch(d, elfPath, ticks)
    decreases ticks
  {
    if ticks > 0 {
      LaunchFollowsSchedule(d, elfPath, pid, ticks - 1);
      ScheduleStep(d, elfPath, ticks);
    }
  }

  /** One tick of the schedule moves it from `ticks - 1` to `ticks`. */
  lemma ScheduleStep(d: Debugger, elfPath: string, ticks: nat)
    requires d.timers == [] && ticks > 0
    ensures Tick(AfterLaunch(d, elfPath, ticks - 1)) == AfterLaunch(d, elfPath, ticks)
  {
    var prev := AfterLaunch(d, elfPath, ticks - 1);
    if ticks <= 2 * Interval {
      FireOne(prev.timers[0], d.now + ticks, prev.session);
      assert prev.timers == [prev.timers[0]];
      if ticks == Interval {
        ScheduleLoads(d, elfPath);
      } else if ticks == 2 * Interval {
        ScheduleConnects(d, elfPath);
      }
    }
  }

  lemma ScheduleLoads(d: Debugger, elfPath: string)
    requires d.timers == []
    ensures Tick(AfterLaunch(d, elfPath, Interval - 1)) == AfterLaunch(d, elfPath, Interval)
  {
    var prev := AfterLaunch(d, elfPath, Interval - 1);
    FireOne(prev.timers[0], d.now + Interval, prev.session);
  }

  lemma ScheduleConnects(d: Debugger, elfPath: string)
    requires d.timers == []
    ensures Tick(AfterLaunch(d, elfPath, 2 * Interval - 1)) == AfterLaunch(d, elfPath, 2 * Interval)
  {
    var prev := AfterLaunch(d, elfPath, 2 * Interval - 1);
    TickConnects(prev.now, prev.session);
  }

  /** A connect timer due at the next tick fires and leaves nothing armed. */
  lemma TickConnects(now: nat, s: Session)
    ensures Tick(Debugger(now, [Timer(now + 1, LocateTarget)], s)) == Debugger(now + 1, [], Perform(s, ConnectTarget))
  {
    FireOne(Timer(now + 1, LocateTarget), now + 1, s);
  }

  /** With a process id, exactly two lines are written, in order and only after the delays:
      none before `Interval`, the symbol load from then on, the connect from twice `Interval`;
      of the two, only the connect is announced. */
  lemma LaunchWritesTwoLines(d: Debugger, elfPath: string, pid: Option<int>, ticks: nat)
    requires d.timers == [] && HasPid(pid)
    ensures var s := Run(LaunchGdb(d, elfPath, pid), ticks).session;
            && (ticks < Interval ==> s == d.session)
            && (Interval <= ticks < 2 * Interval ==>
                  s.writes == d.session.writes + ["file " + elfPath + " \n"] && s.events == d.session.events)
            && (2 * Interval <= ticks ==>
                  s.writes == d.session.writes + ["file " + elfPath + " \n", "target remote localhost:3333 \n"]
                  && s.events == d.session.events + [DebugData("target remote localhost:3333 \n")])
  {
    LaunchFollowsSchedule(d, elfPath, pid, ticks);
    var load := "file " + elfPath + " \n";
    var connect := "target remote localhost:3333 \n";
    assert Render(LoadSymbols(elfPath)).written == load;
    assert RemoteTarget + LineEnd == connect;
    assert Render(ConnectTarget) == Command(connect, Some(connect));
    var s1 := Perform(d.session, LoadSymbols(elfPath));
    assert s1.writes == d.session.writes + [load];
    assert s1.events == d.session.events;
    var s2 := Perform(s1, ConnectTarget);
    assert s2.writes == d.session.writes + [load] + [connect];
    assert d.session.writes + [load] + [connect] == d.session.writes + [load, connect];
  }

  lemma {:induction false} IdleStaysQuiet(d: Debugger, ticks: nat)
    requires d.timers == []
    ensures Run(d, ticks) == d.(now := d.now + ticks)
    decreases ticks
  {
    if ticks > 0 {
      IdleStaysQuiet(d, ticks - 1);
      var before := Run(d, ticks - 1);
      assert before == d.(now := d.now + ticks - 1);
      assert Tick(before) == before.(now := before.now + 1);
    }
  }

  /** Without a process id nothing is ever scheduled, so nothing is ever written or announced. */
  lemma NoPidNoStartup(d: Debugger, elfPath: string, pid: Option<int>, ticks: nat)
    requires d.timers == [] && !HasPid(pid)
    ensures Run(LaunchGdb(d, elfPath, pid), ticks).session == d.session
  {
    IdleStaysQuiet(LaunchGdb(d, elfPath, pid), ticks);
  }

}

=== FILE: tool_paths.dfy ===
/**
 Where the bridge looks for the adapter and debugger binaries: the installation root is the
 module's own directory cut before its last path separator, and each tool path is that root
 followed by a platform-dependent relative path.
 */
module ToolPaths {

  datatype Platform = Win32 | Other

  /** `path.sep`. */
  function Separator(p: Platform): char {
    if p.Win32? then '\\' else '/'
  }

  /** `s.lastIndexOf(c)`: the last position holding `c`, or -1. */
  function LastIndexOf(s: string, c: char): (i: int)
    ensures -1 <= i < |s|
    ensures i >= 0 ==> s[i] == c
    ensures forall j :: i < j < |s| ==> s[j] != c
    ensures i == -1 <==> c !in s
  {
    if |s| == 0 then -1
    else if s[|s| - 1] == c then |s| - 1
    else
      var i := LastIndexOf(s[..|s| - 1], c);
      assert c in s ==> c in s[..|s| - 1] by {
        if c in s {
          var k :| 0 <= k < |s| && s[k] == c;
          assert s[..|s| - 1][k] == c;
        }
      }
      i
  }

  /** `s.substring(0, end)`: a negative end counts as zero. */
  function SubstringTo(s: string, end: int): (r: string)
    requires end <= |s|
    ensures |r| <= |s| && r == s[..|r|]
    ensures |r| == (if end < 0 then 0 else end)
  {
    if end < 0 then "" else s[..end]
  }

  /** `rootDir`: the directory of the module cut before its last separator. */
  function RootDir(dir: string, p: Platform): (r: string)
    ensures |r| <= |dir| && r == dir[..|r|]
    ensures Separator(p) !in dir ==> r == ""
    ensures Separator(p) in dir ==> |r| < |dir| && dir[|r|] == Separator(p)
    ensures Separator(p) in dir ==> Separator(p) !in dir[|r| + 1..]
  {
    var i := LastIndexOf(dir, Separator(p));
    var r := SubstringTo(dir, i);
    r
  }

  datatype Tool = OpenOcd | ScriptDir | BoardScript | Gdb

  /** The installation layout of each tool below the root, one path component after another:
      the components of the path literals in `getOpenOcd`, `getScriptDir`, `getScript` and
      `getGdb`. */
  function Components(t: Tool): (cs: seq<string>)
    ensures |cs| > 1 && cs[0] == "hardware"
  {
    match t
    case OpenOcd => ["hardware", "tools", "OpenOCD-0.9.0-arduino", "bin", "openocd"]
    case ScriptDir => ["hardware", "tools", "OpenOCD-0.9.0-arduino", "share", "openocd", "scripts"]
    case BoardScript => ["hardware", "arduino", "samd", "variants", "arduino_zero", "openocd_scripts", "arduino_zero.cfg"]
    case Gdb => ["hardware", "tools", "samd", "bin", "arm-none-eabi-gdb"]
  }

  function Join(parts: seq<string>, sep: char): string {
    if parts == [] then ""
    else if |parts| == 1 then parts[0]
    else parts[0] + [sep] + Join(parts[1..], sep)
  }

  /** The path of a tool below the installation root: its components joined by the separator. */
  function RelativePath(t: Tool, p: Platform): (r: string)
    ensures |r| > 9 && r[..8] == "hardware" && r[8] == Separator(p)
  {
    var cs := Components(t);
    var r := Join(cs, Separator(p));
    assert r == "hardware" + [Separator(p)] + Join(cs[1..], Separator(p));
    r
  }

  /** The suffix each getter appends to `rootDir`: the relative path, preceded by a backslash
      on Windows and by nothing elsewhere. */
  function SuffixAsWritten(t: Tool, p: Platform): (r: string)
    ensures p.Win32? ==> |r| > 10 && r[0] == '\\' && r[1..] == RelativePath(t, p)
    ensures p.Other? ==> r == RelativePath(t, p) && r[0] != '/'
  {
    var rel := RelativePath(t, p);
    if p.Win32? then [Separator(p)] + rel else rel
  }

  /** `getOpenOcd`, `getScriptDir`, `getScript` and `getGdb` as written. */
  function ToolPathAsWritten(dir: string, t: Tool, p: Platform): (r: string)
    ensures |r| == |RootDir(dir, p)| + |SuffixAsWritten(t, p)|
    ensures r[..|RootDir(dir, p)|] == RootDir(dir, p)
    ensures r[|RootDir(dir, p)|..] == SuffixAsWritten(t, p)
  {
    RootDir(dir, p) + SuffixAsWritten(t, p)
  }

  /** The tool path with the separator between root and relative path on every platform: the
      relative path resolved against the parent of the module's directory. */
  function ToolPath(dir: string, t: Tool, p: Platform): (r: string)
    ensures Separator(p) in dir ==> r == dir[..LastIndexOf(dir, Separator(p)) + 1] + RelativePath(t, p)
    ensures Separator(p) !in dir ==> r == [Separator(p)] + RelativePath(t, p)
  {
    var root := RootDir(dir, p);
    assert Separator(p) in dir ==>
             root + [Separator(p)] == dir[..LastIndexOf(dir, Separator(p)) + 1];
    root + [Separator(p)] + RelativePath(t, p)
  }

  /** On Windows the paths as written are already the intended ones. */
  lemma WindowsPathsAsIntended(dir: string, t: Tool)
    ensures ToolPathAsWritten(dir, t, Win32) == ToolPath(dir, t, Win32)
  {
    JoinAfterSeparator(RootDir(dir, Win32), '\\', RelativePath(t, Win32));
  }

  /** Elsewhere every path as written misses the separator between the root and `hardware`. */
  lemma OtherPathsMissSeparator(dir: string, t: Tool)
    ensures |ToolPathAsWritten(dir, t, Other)| + 1 == |ToolPath(dir, t, Other)|
    ensures ToolPathAsWritten(dir, t, Other) != ToolPath(dir, t, Other)
  {
  }

  /** A concrete instance: with the module in `/a/node`, every tool is looked for below
      `/ahardware/`, a sibling of the installation root `/a`, instead of below `/a/hardware/`. */
  lemma OtherPathExample(t: Tool)
    ensures ToolPathAsWritten("/a/node", t, Other)[..11] == "/ahardware/"
    ensures ToolPath("/a/node", t, Other)[..12] == "/a/hardware/"
  {
    ExampleAsWritten(t);
    ExampleCorrected(t);
  }

  lemma ExampleAsWritten(t: Tool)
    ensures ToolPathAsWritten("/a/node", t, Other)[..11] == "/ahardware/"
  {
    ExampleRoot();
    OtherPathParts("/a/node", t);
    HardwarePrefixes(RelativePath(t, Other));
  }

  lemma ExampleCorrected(t: Tool)
    ensures ToolPath("/a/node", t, Other)[..12] == "/a/hardware/"
  {
    ExampleRoot();
    OtherPathParts("/a/node", t);
    HardwarePrefixes(RelativePath(t, Other));
  }

  lemma JoinAfterSeparator(root: string, sep: char, rel: string)
    ensures root + ([sep] + rel) == root + [sep] + rel
  {
  }

  lemma ExampleRoot()
    ensures RootDir("/a/node", Other) == "/a"
  {
    var dir := "/a/node";
    assert dir[2] == '/';
    assert LastIndexOf(dir, '/') == 2;
  }

  lemma OtherPathParts(dir: string, t: Tool)
    ensures ToolPathAsWritten(dir, t, Other) == RootDir(dir, Other) + RelativePath(t, Other)
    ensures ToolPath(dir, t, Other) == RootDir(dir, Other) + "/" + RelativePath(t, Other)
  {
  }

  lemma HardwarePrefixes(rel: string)
    requires |rel| > 9 && rel[..8] == "hardware" && rel[8] == '/'
    ensures ("/a" + rel)[..11] == "/ahardware/"
    ensures ("/a" + "/" + rel)[..12] == "/a/hardware/"
  {
    assert rel[..9] == rel[..8] + [rel[8]];
    assert ("/a" + rel)[..11] == "/a" + rel[..9];
    assert ("/a" + "/" + rel)[..12] == "/a/" + rel[..9];
  }

}
